=== FILE: README.md ===
# Natural-language task manager: extraction core in Dafny

This project models the deterministic core of a task manager. The manager turns free text into structured task records: a name, an assignee, a due time and a priority. The model covers:

- the **capability check**, which sends meeting transcripts either to a language-model backend or to a deterministic fallback extractor;
- the **fallback extractor** (`mockParseTranscript`), a case-insensitive matcher on name/keyword co-occurrence that emits up to three fixed tasks in a fixed order, each with a relative due time, and a generic task when nothing matches;
- **provenance stamping** of `natural_text`: transcript tasks get `Extracted from transcript: <name> assigned to <assignee>`, and the single-task path keeps the caller's text;
- the **Task schema** (`task_name` is required and trimmed, `assignee` is trimmed and nullable, `due_datetime` is nullable, `priority` is an enum defaulting to P3, `natural_text` is required), modelled as a datatype with a normalising constructor;
- the **HTTP controller's input contract**: the `naturalText` guard and trim, the listing count, the sanitising of update bodies, and the mapping of errors to status codes.

Modules follow the program's files:

| module | file | models |
|---|---|---|
| `Wrappers` | wrappers.dfy | `Option` (null/absent) and `Result` (a value or a thrown error) |
| `Text` | text.dfy | the JavaScript built-ins `trim`, `toLowerCase` and `includes` |
| `Clock` | clock.dfy | weekday arithmetic and the three due times |
| `TaskSchema` | task.dfy | server/models/Task.js |
| `Fallback` | fallback.dfy | `mockParseTranscript` in server/services/taskService.js |
| `TaskService` | service.dfy | the rest of server/services/taskService.js |
| `TaskController` | controller.dfy | server/controllers/taskController.js |

Modelling choices:

- **Time.** "Now" is a parameter. A day is an absolute integer counted from 1970-01-01, which was a Thursday, so `Weekday(day) = (day + 4) % 7` numbers days the way `getDay()` does (Sunday = 0). The Wednesday offset `(3 - getDay() + 7) % 7` always has a dividend in [4, 10]. For such dividends JavaScript's truncating `%` and Dafny's Euclidean `%` agree.
- **Weekday edge case.** One reading of "by Wednesday" says that a reference day which is already Wednesday should resolve to the following week. The code does not do that: the offset is 0 on a Wednesday. The model follows the code. `Clock.ComingWednesdayBehindIff` states exactly when the resulting due time lies before the reference instant: on a Wednesday after 09:00. `Clock.TonightBehindIff` does the same for "tonight" after 21:00.
- **Outside code.** The language-model backend and the task store are function parameters. What they return is not modelled.
- **Lower-casing.** `toLowerCase` is modelled per code point. ASCII capitals map to lower case, U+212A KELVIN SIGN maps to `k`, and every other code point stands for its own lower case. The only other code point whose lower case contains an ASCII letter is U+0130. It lowers to `i` followed by U+0307, and since no keyword ends in `i`, it cannot complete a keyword. So for the six keywords the matching is exact.
- **White space.** `trim` removes exactly the ECMAScript WhiteSpace and LineTerminator code points.
- **Required strings.** A `required` string path rejects the empty string, and the schema's `trim` setter runs before validation. So a whitespace-only `task_name` is rejected.

## Model

| member | source | states |
|---|---|---|
| `TaskService.Capability` | server/services/taskService.js:121 | The fallback (`Degraded`) is chosen exactly when the key is unset, empty, `your_openai_api_key_here` or `sk-test-key-for-demo`. |
| `Text.Contains` | server/services/taskService.js:234 | `includes` is true exactly when the pattern occurs as a contiguous block somewhere in the text. |
| `Text.ToLower` | server/services/taskService.js:234 | Lower-casing keeps the length, leaves no ASCII capital or Kelvin sign, shifts capitals by 32, turns the Kelvin sign into `k` and leaves every other character alone. |
| `Text.ToLowerIdempotent` | server/services/taskService.js:234 | Lower-casing an already lower-cased text changes nothing. |
| `Text.LowerLacksLetter` | server/services/taskService.js:243 | A letter other than `k` and `i` that is absent from the text in both cases is absent from its lower-cased form. `k` comes from the Kelvin sign and `i` from U+0130. |
| `Text.Trim` | server/controllers/taskController.js:8 | `trim` returns a slice of its input that has no edge white space and has only white space around it. It is empty exactly when the input is all white space. |
| `Text.TrimUnique` | server/models/Task.js:4-8 | Space, then a core without edge space, then space: trimming returns exactly that core. |
| `Text.TrimIdempotent` | server/models/Task.js:4-8 | Trimming a trimmed string changes nothing. |
| `Text.TrimKeepsClean` | server/models/Task.js:9-13 | A string without edge white space is its own trim. |
| `Clock.Weekday` | server/services/taskService.js:224 | `getDay()`: a number in [0, 6] that differs from the day count by the weekday of 1970-01-01 (Thursday, 4), modulo 7. |
| `Clock.WeekdayCycle` | server/services/taskService.js:224 | Day 0 is a Thursday. Each day's weekday follows the previous one's, wrapping from Saturday to Sunday, so the weekday repeats every 7 days. |
| `Clock.At` | server/services/taskService.js:221 | `setHours(h, 0, 0, 0)`: a valid instant on the same day at hour `h`, with minutes, seconds and milliseconds zero. |
| `Clock.DaysUntilWednesday` | server/services/taskService.js:224 | The offset lies in [0, 6], it lands on a Wednesday, it is 0 exactly on a Wednesday, and no earlier day in between is a Wednesday. |
| `Clock.ComingWednesdayLandsOnWednesday` | server/services/taskService.js:223-226 | `Clock.ComingWednesday` (the Rajeev due time) falls on a day that is a Wednesday within six days of the reference day, at 09:00. It is the reference day itself exactly when that day is a Wednesday. |
| `Clock.TomorrowNightIsAhead` | server/services/taskService.js:219-221 | `Clock.TomorrowNight`, the "tomorrow" due time (next day, 22:00), is always after the reference instant. |
| `Clock.TonightBehindIff` | server/services/taskService.js:228-229 | `Clock.Tonight`, the "tonight" due time (today, 21:00), is before the reference instant exactly when that instant's clock reads later than 21:00:00.000: hour above 21, or hour 21 with a non-zero minute, second or millisecond. |
| `Clock.ComingWednesdayBehindIff` | server/services/taskService.js:223-226 | The Wednesday due time is before the reference instant exactly when the reference day is a Wednesday and its clock reads later than 09:00:00.000. |
| `Clock.WednesdayMorningExample` | server/services/taskService.js:224-226 | A concrete Wednesday at 10:00 gets a Wednesday due time that is already past. |
| `TaskSchema.ParsePriority` | server/models/Task.js:18-22 | The enum accepts exactly `P1`..`P4`, and the accepted name is the priority's own name. |
| `TaskSchema.PriorityNameRoundTrip` | server/models/Task.js:18-22 | Each priority survives a trip through its stored name. |
| `TaskSchema.TrimOption` | server/models/Task.js:9-13 | The `trim` setter on the nullable `assignee`: null stays null, a string becomes a string without edge white space, and a string that already has none is kept as it is. |
| `TaskSchema.MakeTask` | server/models/Task.js:3-27 | A task is built exactly when the trimmed name is non-empty, natural text is present and non-empty, and the priority is absent or valid. A built task is well formed: its name and assignee are trimmed, its due time and natural text are kept, and its priority defaults to P3. |
| `TaskSchema.MakeTaskRoundTrip` | server/models/Task.js:3-27 | Rebuilding a well-formed task from its own fields gives the same task. |
| `TaskSchema.MakeTaskIdempotent` | server/models/Task.js:3-27 | Normalising the fields of a built task gives that task back. |
| `Fallback.MockParseTranscript` | server/services/taskService.js:218-272 | Returns 1 to 3 tasks, all of them candidates and all P3. The result is the generic task alone exactly when no pattern fires, and the generic task appears at all only then. A pattern's task is present exactly when that pattern fires. Tasks come in Aman, Rajeev, Shreya order without repeats. |
| `Fallback.Fires` | server/services/taskService.js:234-252 | A pattern fires exactly when both its name and its keyword occur as contiguous blocks in the lower-cased transcript. |
| `Fallback.Found` | server/services/taskService.js:232-259 | The pushed tasks: exactly the fired patterns' tasks, in strictly increasing pattern order, empty exactly when no pattern fired. |
| `Fallback.Assemble` | server/services/taskService.js:232-271 | Given which patterns fired, the output holds exactly the fired patterns' tasks in pattern order. The generic task is present, and then alone, exactly when none fired. |
| `Fallback.Candidates` | server/services/taskService.js:235-268 | The four possible tasks: each pattern's task in Aman, Rajeev, Shreya order, then the generic task. The task at position k has rank k. |
| `Fallback.CandidatesClean` | server/services/taskService.js:235-268 | Every task the extractor can emit has a present, trimmed name, a trimmed or null assignee and priority `P3`. |
| `Fallback.PatternDueTimes` | server/services/taskService.js:219-229 | `Fallback.DueAt`, which `Fallback.Emit` puts into each pattern's task, gives these due times. Aman is due tomorrow at 22:00:00.000. Rajeev is due on the coming Wednesday at 09:00:00.000, which is today if today is a Wednesday. Shreya is due today at 21:00:00.000. |
| `Fallback.MockIgnoresCase` | server/services/taskService.js:234-252 | A transcript and its lower-cased form produce the same tasks. |
| `Fallback.OnlyOnePatternFires` | server/services/taskService.js:232-259 | When exactly one pattern fires, its task is the whole output. |
| `Fallback.EmptyTranscriptGivesGenericTask` | server/services/taskService.js:261-269 | An empty transcript yields the generic task alone. |
| `Fallback.AmanExampleFires` | server/services/taskService.js:234 | The Aman pattern fires on `AMAN: Landing Page` despite the capitals. |
| `Fallback.AmanExampleRajeevSilent` | server/services/taskService.js:243 | The Rajeev pattern does not fire on that transcript. |
| `Fallback.AmanExampleShreyaSilent` | server/services/taskService.js:252 | The Shreya pattern does not fire on that transcript. |
| `Fallback.AmanOnlyTranscript` | server/services/taskService.js:232-271 | That transcript yields exactly the Aman task. |
| `TaskService.Provenance` | server/services/taskService.js:132 | The provenance text always starts with `Extracted from transcript: `. |
| `TaskService.ProvenanceText` | server/services/taskService.js:203 | The provenance is `Extracted from transcript: <name> assigned to <assignee>`. A null assignee prints as `null`, and a missing name as `undefined`. |
| `TaskService.Stamp` | server/services/taskService.js:130-133 | Stamping sets a non-empty natural text and changes no other field. |
| `TaskService.SaveAll` | server/services/taskService.js:129-137 | Tasks are built in order. The result succeeds exactly when every draft validates, and then its i-th task is the i-th draft's task. A failure is the error of some draft. |
| `TaskService.SaveStamped` | server/services/taskService.js:198-210 | Every draft is stamped and built in order. Any failure becomes the transcript error. |
| `TaskService.ParseTranscript` | server/services/taskService.js:116-215 | `Degraded` mode always succeeds with 1 to 3 tasks. Each task is a fallback draft saved with its own name, assignee and due time, priority P3, and natural text `Extracted from transcript: <name> assigned to <assignee>`. The only failure is "Failed to parse tasks from transcript". In `Ready` mode a backend failure gives that same error. Otherwise the result is the backend drafts stamped and saved in order, and a success has one task per draft whose natural text is that draft's provenance. |
| `TaskService.StampedDraftIsValid` | server/services/taskService.js:130-133 | A draft with a trimmed name and priority `P3` validates once stamped and keeps its name and P3. |
| `TaskService.CleanDraftSaves` | server/services/taskService.js:130-135 | Such a draft with a trimmed assignee is saved unchanged, with its provenance as natural text. |
| `TaskService.CandidateSaves` | server/services/taskService.js:129-136 | Every fallback candidate is saved unchanged with its provenance. |
| `TaskService.SavedCandidates` | server/services/taskService.js:125-139 | A list of fallback candidates is saved task by task: name, assignee and due time are kept, priority is P3, and natural text is the provenance. |
| `TaskService.DegradedGenericTask` | server/services/taskService.js:261-269 | In `Degraded` mode a transcript that fires no pattern yields exactly one task: the generic one with a null assignee, a null due time, P3 and the provenance ending in `null`. |
| `TaskService.DegradedIgnoresBackend` | server/services/taskService.js:121 | The capability check is static. In `Degraded` mode the backend does not affect the result. |
| `TaskService.CreateTask` | server/services/taskService.js:71-86 | A backend failure gives "Failed to parse task from natural language". A validation failure is passed on as the schema's validation error. A created task's natural text is the caller's text, unchanged. Its name and assignee are the backend's, trimmed. Its due time is the backend's, and its priority is the backend's or P3 when the backend gives none. Once the backend succeeds, creation succeeds exactly when the text is non-empty and the name and priority validate. |
| `TaskService.UpdateTask` | server/services/taskService.js:97-114 | The update succeeds exactly when the store returns a task. A missing task gives "Task not found", and a store error propagates unchanged. |
| `TaskController.Admit` | server/controllers/taskController.js:8-15 | Text is accepted exactly when it is a string with a non-space character. What is passed on is its trim: non-empty and without edge space. |
| `TaskController.ErrorText` | server/controllers/taskController.js:23-25 | The error text is never empty. It is the error's message when that message is non-empty, and `Internal server error` otherwise. |
| `TaskController.CreateTask` | server/controllers/taskController.js:4-27 | 400 is returned exactly for rejected text. 201 is returned exactly when the service succeeds on the trimmed text, with `success: true` and the service's task. Anything else is 500, and its body is the service error's message, or `Internal server error` when that message is empty. |
| `TaskController.GetAllTasks` | server/controllers/taskController.js:29-44 | 200 is returned exactly when listing succeeds, with `success`, the listed tasks and `count` equal to their number. Otherwise 500, with the listing error's message or `Internal server error` when it is empty. |
| `TaskController.Sanitize` | server/controllers/taskController.js:52-55 | Exactly `_id`, `__v`, `createdAt` and `updatedAt` are removed. Every other key keeps its value. |
| `TaskController.SanitizeIdempotent` | server/controllers/taskController.js:52-55 | Sanitising twice is sanitising once. |
| `TaskController.SanitizeKeepsCleanBody` | server/controllers/taskController.js:52-55 | A body without protected keys passes through untouched. |
| `TaskController.UpdateErrorResponse` | server/controllers/taskController.js:66-74 | An error whose message is "Task not found" gives 404 with that message. Any other error gives 500. |
| `TaskController.UpdateTask` | server/controllers/taskController.js:46-76 | The store receives the sanitised body. 200 is returned exactly when the store returns a task. 404 is returned exactly for a missing task or a "Task not found" error, with the body `Task not found`. Otherwise 500, only for a store error, with that error's message or `Internal server error` when it is empty. |
| `TaskController.CreateStoresTrimmedText` | server/controllers/taskController.js:15 | End to end: accepted text reaches the backend trimmed, and a created task's natural text is exactly that trimmed text. |
| `TaskController.BlankTextRejected` | server/controllers/taskController.js:8-12 | Missing, non-string or whitespace-only text is answered with 400 and the fixed message. |

## Left out

- The language-model paths are not modelled. `parseNaturalLanguage` and the backend branch of `parseTranscript` (server/services/taskService.js:11-69, 142-196) are network calls plus `JSON.parse` of model output. Their assignee and time "rules" exist only as prompt text. The backend is a function parameter whose result is taken as given.
- Persistence is not modelled: `save`, `find().sort({createdAt: -1})`, `findByIdAndUpdate` with `runValidators`, and the `timestamps` option. Saving is modelled as schema validation only, so when a later transcript task fails, the earlier tasks that were already stored are not represented. The store is a parameter.
- Date-library details are not modelled. The four `new Date()` reads (server/services/taskService.js:219, 223, 224 and 228) are taken to fall on one day. `setDate` month rollover disappears because days are absolute integers. `toISOString`'s conversion to UTC text is not represented: due times stay structured instants.
- Mongoose casting of `due_datetime` to `Date` is not modelled, nor are its cast errors.
- Mongoose's exact validation message is not modelled. A validation failure carries one fixed non-empty message.
- Text.ToLower: every non-ASCII character other than the Kelvin sign is kept as itself. `toLowerCase` maps other non-ASCII capitals to their lower case (`Ä` to `ä`), and it turns U+0130 into `i` followed by U+0307, a longer string. Every keyword is ASCII and none ends in `i`, so none of this can change whether a pattern fires (see "Lower-casing" above).
- A `null` priority is not modelled: a priority is either absent or a string.
- An `undefined` assignee is not distinguished from `null`. Both are `None` and render as `null` in provenance. Only the language-model path could produce `undefined`.
- Text is modelled as sequences of Unicode scalar values. Unpaired UTF-16 surrogates, which JavaScript strings may hold, are not representable.
- The Express wiring, the rate limiter and the database connection are not modelled. server/routes/tasks.js:15 registers `taskController.parseTranscript`, which the controller does not define, so the transcript path has no controller to model.
- The client (React components and HTTP wrappers) and all console logging are not modelled.
- `TaskService.getAllTasks` is not modelled: it only forwards the store's list, and that list enters `TaskController.GetAllTasks` as a parameter.

=== FILE: clock.dfy ===
/**
 * Calendar arithmetic for the fallback extractor's due times. A day is an
 * absolute integer counted from 1970-01-01, which was a Thursday; weekdays are
 * numbered as `Date.prototype.getDay` numbers them, Sunday = 0 to Saturday = 6.
 */
module Clock {

  const Sunday := 0
  const Wednesday := 3
  /** The weekday of day 0, 1970-01-01. */
  const EpochWeekday := 4

  /** `getDay()` of any instant on `day`. */
  function Weekday(day: int): (w: int)
    ensures 0 <= w < 7
    ensures (w - day - EpochWeekday) % 7 == 0
  {
    (day + EpochWeekday) % 7
  }

  /** Day 0 is a Thursday, and each day's weekday is the previous one's plus one, wrapping from Saturday to Sunday. */
  lemma WeekdayCycle(day: int)
    ensures Weekday(0) == 4
    ensures Weekday(day + 1) == (if Weekday(day) == 6 then Sunday else Weekday(day) + 1)
    ensures Weekday(day + 7) == Weekday(day)
  {
  }

  /** A wall-clock instant: a day and a time of day down to the millisecond. */
  datatype Instant = Instant(day: int, hour: nat, minute: nat, second: nat, millis: nat) {

    predicate Valid() {
      hour < 24 && minute < 60 && second < 60 && millis < 1000
    }

    /** Milliseconds since 1970-01-01 00:00:00.000 on the same clock. */
    function Millis(): int {
      (((day * 24 + hour) * 60 + minute) * 60 + second) * 1000 + millis
    }

    predicate Before(other: Instant) {
      Millis() < other.Millis()
    }
  }

  /** `d.setHours(hour, 0, 0, 0)` on a date whose day is `day`. */
  function At(day: int, hour: nat): (t: Instant)
    requires hour < 24
    ensures t.Valid() && t.day == day && t.hour == hour
    ensures t.minute == 0 && t.second == 0 && t.millis == 0
  {
    Instant(day, hour, 0, 0, 0)
  }

  /**
   * `(3 - getDay() + 7) % 7`: the number of days from `today` to the first
   * Wednesday at or after it. The dividend lies in [4, 10], so JavaScript's
   * truncating `%` and Dafny's Euclidean `%` agree here.
   */
  function DaysUntilWednesday(today: int): (d: int)
    ensures 0 <= d <= 6
    ensures Weekday(today + d) == Wednesday
    ensures d == 0 <==> Weekday(today) == Wednesday
    ensures forall day :: today <= day < today + d ==> Weekday(day) != Wednesday
  {
    (Wednesday - Weekday(today) + 7) % 7
  }

  /** "tonight": today at 21:00:00.000. */
  function Tonight(today: int): Instant {
    At(today, 21)
  }

  /** "tomorrow": the next day at 22:00:00.000. */
  function TomorrowNight(today: int): Instant {
    At(today + 1, 22)
  }

  /** "by Wednesday": the first Wednesday at or after today, at 09:00:00.000. */
  function ComingWednesday(today: int): Instant {
    At(today + DaysUntilWednesday(today), 9)
  }

  /** The Wednesday due time lands on a Wednesday within the coming week, at nine o'clock. */
  lemma ComingWednesdayLandsOnWednesday(today: int)
    ensures Weekday(ComingWednesday(today).day) == Wednesday
    ensures today <= ComingWednesday(today).day <= today + 6
    ensures ComingWednesday(today).day == today <==> Weekday(today) == Wednesday
    ensures ComingWednesday(today).hour == 9 && ComingWednesday(today).Valid()
  {
  }

  /** The "tomorrow" due time is always later than the reference instant. */
  lemma TomorrowNightIsAhead(now: Instant)
    requires now.Valid()
    ensures now.Before(TomorrowNight(now.day))
  {
  }

  /**
   * The "tonight" due time precedes the reference instant exactly when the
   * reference instant is already past 21:00:00.000.
   */
  lemma TonightBehindIff(now: Instant)
    requires now.Valid()
    ensures Tonight(now.day).Before(now)
        <==> now.hour > 21 || (now.hour == 21 && (now.minute > 0 || now.second > 0 || now.millis > 0))
  {
  }

  /**
   * The Wednesday due time precedes the reference instant exactly when the
   * reference day is itself a Wednesday and it is already past 09:00:00.000:
   * the offset is 0 on a Wednesday rather than a week.
   */
  lemma ComingWednesdayBehindIff(now: Instant)
    requires now.Valid()
    ensures ComingWednesday(now.day).Before(now)
        <==> && Weekday(now.day) == Wednesday
             && (now.hour > 9 || (now.hour == 9 && (now.minute > 0 || now.second > 0 || now.millis > 0)))
  {
    var d := DaysUntilWednesday(now.day);
    if d > 0 {
      assert ComingWednesday(now.day).Millis() >= (now.day + 1) * 86_400_000;
      assert now.Millis() < (now.day + 1) * 86_400_000;
    }
  }

  /** A Wednesday at 10:00 is a reference instant whose Wednesday due time is in the past. */
  lemma WednesdayMorningExample()
    ensures Weekday(6) == Wednesday
    ensures ComingWednesday(6).Before(Instant(6, 10, 0, 0, 0))
  {
  }
}

=== FILE: controller.dfy ===
/**
 * The HTTP controller: input validation for task creation, the listing
 * response, the sanitising of update bodies, and the mapping of errors to
 * status codes. Requests and responses are plain values; the service is a
 * parameter.
 */
module TaskController {
  import opened Wrappers
  import opened Text
  import opened TaskSchema
  import TaskService

  /** The `naturalText` property of a request body: missing, of another JSON type, or a string. */
  datatype BodyValue = Absent | NotString | Str(s: string)

  datatype Body =
    | TaskBody(success: bool, task: Task)
    | ListBody(success: bool, tasks: seq<Task>, count: int)
    | ErrorBody(error: string)

  datatype Response = Response(status: int, body: Body)

  const InvalidTextMessage := "naturalText is required and must be a non-empty string"
  const DefaultErrorMessage := "Internal server error"

  /**
   * The guard of `createTask`: only a string with some non-space character is
   * accepted, and what goes on is its trimmed form.
   */
  function Admit(naturalText: BodyValue): (r: Option<string>)
    ensures r.Some? <==> naturalText.Str? && !AllSpace(naturalText.s)
    ensures r.Some? ==> r.value == Trim(naturalText.s)
    ensures r.Some? ==> |r.value| > 0 && NoEdgeSpace(r.value)
  {
    match naturalText
    case Str(s) => if |Trim(s)| == 0 then None else Some(Trim(s))
    case _ => None
  }

  /** `error.message || 'Internal server error'`: an empty message falls back to the default. */
  function ErrorText(e: Error): (m: string)
    ensures |m| > 0
    ensures |e.message| > 0 ==> m == e.message
    ensures |e.message| == 0 ==> m == DefaultErrorMessage
  {
    if |e.message| == 0 then DefaultErrorMessage else e.message
  }

  /**
   * `createTask(req, res)`: 400 for unusable text, otherwise the service is
   * called with the trimmed text; 201 with its task, or 500 with its error.
   */
  function CreateTask(naturalText: BodyValue, service: string -> Result<Task, Error>): (r: Response)
    ensures r.status in {201, 400, 500}
    ensures r.status == 400 <==> Admit(naturalText).None?
    ensures r.status == 400 ==> r.body == ErrorBody(InvalidTextMessage)
    ensures r.status == 201 <==> Admit(naturalText).Some? && service(Admit(naturalText).value).Success?
    ensures r.status == 201 ==> r.body == TaskBody(true, service(Admit(naturalText).value).value)
    ensures r.status == 500 ==> r.body.ErrorBody? && |r.body.error| > 0
    ensures r.status == 500 ==> r.body == ErrorBody(ErrorText(service(Admit(naturalText).value).error))
  {
    match Admit(naturalText)
    case None => Response(400, ErrorBody(InvalidTextMessage))
    case Some(text) =>
      match service(text)
      case Success(task) => Response(201, TaskBody(true, task))
      case Failure(e) => Response(500, ErrorBody(ErrorText(e)))
  }

  /** `getAllTasks(req, res)`: 200 with the listed tasks and their count, or 500. */
  function GetAllTasks(listed: Result<seq<Task>, Error>): (r: Response)
    ensures r.status == 200 <==> listed.Success?
    ensures r.status == 200 ==> r.body.ListBody? && r.body.success
    ensures r.status == 200 ==> r.body.tasks == listed.value && r.body.count == |r.body.tasks|
    ensures r.status != 200 ==> r.status == 500 && r.body.ErrorBody? && |r.body.error| > 0
    ensures listed.Failure? ==> r == Response(500, ErrorBody(ErrorText(listed.error)))
  {
    match listed
    case Success(tasks) => Response(200, ListBody(true, tasks, |tasks|))
    case Failure(e) => Response(500, ErrorBody(ErrorText(e)))
  }

  /** The update-body keys that are never passed on to the store. */
  const ProtectedKeys: set<string> := {"_id", "__v", "createdAt", "updatedAt"}

  /** The four `delete`s of `updateTask`: protected keys go, everything else stays as it was. */
  function Sanitize<V>(body: map<string, V>): (r: map<string, V>)
    ensures r.Keys == body.Keys - ProtectedKeys
    ensures forall k :: k in r ==> r[k] == body[k]
  {
    body - ProtectedKeys
  }

  /** Sanitising twice is sanitising once. */
  lemma SanitizeIdempotent<V>(body: map<string, V>)
    ensures Sanitize(Sanitize(body)) == Sanitize(body)
  {
  }

  /** A body without protected keys passes through untouched. */
  lemma SanitizeKeepsCleanBody<V>(body: map<string, V>)
    requires body.Keys !! ProtectedKeys
    ensures Sanitize(body) == body
  {
  }

  /** The status for an error thrown while updating: 404 for "Task not found", 500 otherwise. */
  function UpdateErrorResponse(e: Error): (r: Response)
    ensures r.status == 404 <==> e.message == TaskService.NotFound.message
    ensures r.status == 404 ==> r.body == ErrorBody(TaskService.NotFound.message)
    ensures r.status != 404 ==> r.status == 500 && r.body == ErrorBody(ErrorText(e))
  {
    if e.message == TaskService.NotFound.message then Response(404, ErrorBody(TaskService.NotFound.message))
    else Response(500, ErrorBody(ErrorText(e)))
  }

  /**
   * `updateTask(req, res)`: the sanitised body goes to the store; 200 with the
   * updated task, 404 when it is missing, 500 for any other error.
   */
  function UpdateTask<V>(
    id: string,
    body: map<string, V>,
    store: (string, map<string, V>) -> Result<Option<Task>, Error>)
    : (r: Response)
    ensures var outcome := store(id, Sanitize(body));
      && (r.status == 200 <==> outcome.Success? && outcome.value.Some?)
      && (r.status == 200 ==> r.body == TaskBody(true, outcome.value.value))
      && (r.status == 404 <==> outcome == Success(None)
                               || (outcome.Failure? && outcome.error.message == TaskService.NotFound.message))
      && (r.status == 404 ==> r.body == ErrorBody(TaskService.NotFound.message))
      && (r.status !in {200, 404} ==> r.status == 500 && r.body.ErrorBody?)
      && (r.status == 500 ==> outcome.Failure? && r.body == ErrorBody(ErrorText(outcome.error)))
  {
    match TaskService.UpdateTask(id, Sanitize(body), store)
    case Success(task) => Response(200, TaskBody(true, task))
    case Failure(e) => UpdateErrorResponse(e)
  }

  /**
   * End to end: a request whose text has a non-space character reaches the
   * backend trimmed, and a created task keeps exactly that trimmed text.
   */
  lemma CreateStoresTrimmedText(input: string, backend: string -> Result<TaskFields, Error>)
    requires !AllSpace(input)
    ensures var r := CreateTask(Str(input), text => TaskService.CreateTask(text, backend));
      && r.status in {201, 500}
      && (r.status == 201 ==> r.body.task.naturalText == Trim(input))
      && (r.status == 500 && backend(Trim(input)).Failure? ==>
            r.body == ErrorBody(TaskService.SingleParseFailed.message))
  {
  }

  /** Text that is missing, not a string or only white space never reaches the backend. */
  lemma BlankTextRejected(input: BodyValue, service: string -> Result<Task, Error>)
    requires input.Absent? || input.NotString? || (input.Str? && AllSpace(input.s))
    ensures CreateTask(input, service) == Response(400, ErrorBody(InvalidTextMessage))
  {
  }
}

=== FILE: fallback.dfy ===
/**
 * The deterministic transcript extractor used when no language-model key is
 * configured: three fixed name/keyword co-occurrence patterns, tried in a
 * fixed order, each emitting one fixed task; a generic task when none fires.
 */
module Fallback {
  import opened Wrappers
  import opened Text
  import Clock
  import opened TaskSchema

  /** Which relative due time a pattern's task gets. */
  datatype Due = TomorrowNight | ComingWednesday | Tonight

  /**
   * A known speaker pattern: it fires when the lower-cased transcript contains
   * both `name` and `keyword` anywhere, in either order.
   */
  datatype Pattern = Pattern(name: string, keyword: string, taskName: string, assignee: string, due: Due)

  const AmanPattern := Pattern("aman", "landing page", "Take the landing page", "Aman", TomorrowNight)
  const RajeevPattern := Pattern("rajeev", "follow-up", "Client follow-up", "Rajeev", ComingWednesday)
  const ShreyaPattern := Pattern("shreya", "marketing deck", "Review the marketing deck", "Shreya", Tonight)

  /** The patterns in the order they are tried and their tasks are emitted. */
  const Patterns: seq<Pattern> := [AmanPattern, RajeevPattern, ShreyaPattern]

  const FallbackPriority := "P3"

  /** The task emitted when no pattern fires. */
  const GenericTask := TaskFields(Some("Process meeting transcript"), None, None, Some(FallbackPriority), None)

  /** `lower.includes(name) && lower.includes(keyword)` on `lower = transcript.toLowerCase()`. */
  function Fires(p: Pattern, transcript: string): (r: bool)
    ensures r <==> IsInfix(p.name, ToLower(transcript)) && IsInfix(p.keyword, ToLower(transcript))
  {
    var lower := ToLower(transcript);
    Contains(lower, p.name) && Contains(lower, p.keyword)
  }

  function DueAt(due: Due, today: int): Clock.Instant {
    match due
    case TomorrowNight => Clock.TomorrowNight(today)
    case ComingWednesday => Clock.ComingWednesday(today)
    case Tonight => Clock.Tonight(today)
  }

  /** The task a fired pattern contributes. */
  function Emit(p: Pattern, today: int): TaskFields {
    TaskFields(Some(p.taskName), Some(p.assignee), Some(DueAt(p.due, today)), Some(FallbackPriority), None)
  }

  /**
   * The position of a task's pattern in `Patterns`, told apart by task name;
   * 3 for anything else.
   */
  function Rank(f: TaskFields): nat {
    if f.taskName == Some(AmanPattern.taskName) then 0
    else if f.taskName == Some(RajeevPattern.taskName) then 1
    else if f.taskName == Some(ShreyaPattern.taskName) then 2
    else 3
  }

  /** Every task the extractor can emit, ranked 0 to 3: each pattern's task in pattern order, then the generic task. */
  function Candidates(today: int): (c: seq<TaskFields>)
    ensures |c| == |Patterns| + 1
    ensures forall k :: 0 <= k < |Patterns| ==> c[k] == Emit(Patterns[k], today)
    ensures c[|Patterns|] == GenericTask
    ensures forall k :: 0 <= k < |c| ==> Rank(c[k]) == k
  {
    [Emit(AmanPattern, today), Emit(RajeevPattern, today), Emit(ShreyaPattern, today), GenericTask]
  }

  /** A present name without edge white space, an assignee without it, and the fallback priority. */
  predicate Clean(c: TaskFields) {
    && c.taskName.Some? && |c.taskName.value| > 0 && NoEdgeSpace(c.taskName.value)
    && (c.assignee.Some? ==> NoEdgeSpace(c.assignee.value))
    && c.priority == Some(FallbackPriority)
  }

  /** Each candidate is clean. */
  lemma CandidatesClean(today: int)
    ensures forall c :: c in Candidates(today) ==> Clean(c)
  {
    assert Clean(Emit(AmanPattern, today));
    assert Clean(Emit(RajeevPattern, today));
    assert Clean(Emit(ShreyaPattern, today));
    assert Clean(GenericTask);
  }

  /** Every task in a list of candidates is clean and carries no natural text yet. */
  lemma CandidateListClean(r: seq<TaskFields>, today: int)
    requires forall i :: 0 <= i < |r| ==> r[i] in Candidates(today)
    ensures forall i :: 0 <= i < |r| ==> Clean(r[i]) && r[i].naturalText.None?
  {
    CandidatesClean(today);
  }

  /** The tasks of the fired patterns, in pattern order. */
  function Found(fired: seq<bool>, today: int): (r: seq<TaskFields>)
    requires |fired| == |Patterns|
    ensures |r| <= |Patterns|
    ensures |r| == 0 <==> forall k :: 0 <= k < |Patterns| ==> !fired[k]
    ensures forall i :: 0 <= i < |r| ==> r[i] in Candidates(today) && Rank(r[i]) < |Patterns|
    ensures forall k :: 0 <= k < |Patterns| ==> (Emit(Patterns[k], today) in r <==> fired[k])
    ensures forall i, j :: 0 <= i < j < |r| ==> Rank(r[i]) < Rank(r[j])
  {
    var c := Candidates(today);
    assert Rank(c[0]) == 0 && Rank(c[1]) == 1 && Rank(c[2]) == 2;
    (if fired[0] then [c[0]] else [])
      + (if fired[1] then [c[1]] else [])
      + (if fired[2] then [c[2]] else [])
  }

  /**
   * The emitted list, given which of the three patterns fired: the fired
   * patterns' tasks in pattern order, or the generic task alone.
   */
  function Assemble(fired: seq<bool>, today: int): (r: seq<TaskFields>)
    requires |fired| == |Patterns|
    ensures 1 <= |r| <= |Patterns|
    ensures forall i :: 0 <= i < |r| ==> r[i] in Candidates(today)
    ensures r == [GenericTask] <==> forall k :: 0 <= k < |Patterns| ==> !fired[k]
    ensures GenericTask in r <==> forall k :: 0 <= k < |Patterns| ==> !fired[k]
    ensures forall k :: 0 <= k < |Patterns| ==> (Emit(Patterns[k], today) in r <==> fired[k])
    ensures forall i, j :: 0 <= i < j < |r| ==> Rank(r[i]) < Rank(r[j])
  {
    var c := Candidates(today);
    var found := Found(fired, today);
    if |found| == 0 then
      assert forall k :: 0 <= k < |Patterns| ==> Rank(c[k]) != Rank(GenericTask);
      [GenericTask]
    else
      assert GenericTask !in found by {
        assert forall i :: 0 <= i < |found| ==> Rank(found[i]) < Rank(GenericTask);
      }
      found
  }

  /**
   * `mockParseTranscript(transcript)` with "now" falling on day `today`:
   * one task per firing pattern, in pattern order, or the generic task alone.
   */
  function MockParseTranscript(transcript: string, today: int): (r: seq<TaskFields>)
    ensures 1 <= |r| <= |Patterns|
    ensures forall i :: 0 <= i < |r| ==> r[i] in Candidates(today)
    ensures forall i :: 0 <= i < |r| ==> r[i].priority == Some(FallbackPriority)
    ensures forall i :: 0 <= i < |r| ==> r[i].naturalText.None?
    ensures r == [GenericTask] <==> forall k :: 0 <= k < |Patterns| ==> !Fires(Patterns[k], transcript)
    ensures GenericTask in r <==> forall k :: 0 <= k < |Patterns| ==> !Fires(Patterns[k], transcript)
    ensures forall k :: 0 <= k < |Patterns| ==> (Emit(Patterns[k], today) in r <==> Fires(Patterns[k], transcript))
    ensures forall i, j :: 0 <= i < j < |r| ==> Rank(r[i]) < Rank(r[j])
  {
    var r := Assemble(seq(|Patterns|, k requires 0 <= k < |Patterns| => Fires(Patterns[k], transcript)), today);
    CandidateListClean(r, today);
    r
  }

  /** Each pattern's due time: the Aman task tomorrow at 22:00, the Rajeev task on the coming Wednesday at 09:00, the Shreya task today at 21:00. */
  lemma PatternDueTimes(today: int)
    ensures var d := DueAt(AmanPattern.due, today);
      d.Valid() && d.day == today + 1 && d.hour == 22 && d.minute == 0 && d.second == 0 && d.millis == 0
    ensures var d := DueAt(RajeevPattern.due, today);
      && d.Valid() && Clock.Weekday(d.day) == Clock.Wednesday && today <= d.day <= today + 6
      && (d.day == today <==> Clock.Weekday(today) == Clock.Wednesday)
      && d.hour == 9 && d.minute == 0 && d.second == 0 && d.millis == 0
    ensures var d := DueAt(ShreyaPattern.due, today);
      d.Valid() && d.day == today && d.hour == 21 && d.minute == 0 && d.second == 0 && d.millis == 0
  {
    Clock.ComingWednesdayLandsOnWednesday(today);
  }

  /** Matching ignores case: a transcript and its lower-cased form give the same tasks. */
  lemma MockIgnoresCase(transcript: string, today: int)
    ensures MockParseTranscript(ToLower(transcript), today) == MockParseTranscript(transcript, today)
  {
    ToLowerIdempotent(transcript);
  }

  /** A pattern cannot occur in a text lacking one of its characters. */
  lemma MissingCharBlocksMatch(p: string, s: string, c: char)
    requires c in p && c !in s
    ensures !Contains(s, p)
  {
  }

  /** An empty transcript yields the generic task alone. */
  lemma EmptyTranscriptGivesGenericTask(today: int)
    ensures MockParseTranscript("", today) == [GenericTask]
  {
  }

  /** When exactly one pattern fires, its task is the whole output. */
  lemma OnlyOnePatternFires(transcript: string, today: int, k: nat)
    requires k < |Patterns| && Fires(Patterns[k], transcript)
    requires forall j :: 0 <= j < |Patterns| && j != k ==> !Fires(Patterns[j], transcript)
    ensures MockParseTranscript(transcript, today) == [Emit(Patterns[k], today)]
  {
    var fired := seq(|Patterns|, j requires 0 <= j < |Patterns| => Fires(Patterns[j], transcript));
    assert fired == seq(|Patterns|, j requires 0 <= j < |Patterns| => j == k);
  }

  // The example lemmas below take the transcript as a parameter pinned by
  // `requires` so that the solver does not unfold the literal everywhere.

  /** Lower-casing lets the Aman pattern fire on a capitalised transcript. */
  lemma AmanExampleFires(transcript: string)
    requires transcript == "AMAN: Landing Page"
    ensures Fires(AmanPattern, transcript)
  {
    var lower := ToLower(transcript);
    assert lower[..4] == "aman";
    assert lower[6..18] == "landing page";
    assert OccursAt("aman", lower, 0);
    assert OccursAt("landing page", lower, 6);
  }

  /** The Rajeev pattern stays silent on the same transcript: it has no `j`. */
  lemma AmanExampleRajeevSilent(transcript: string)
    requires transcript == "AMAN: Landing Page"
    ensures !Fires(RajeevPattern, transcript)
  {
    LowerLacksLetter(transcript, 'j');
    MissingCharBlocksMatch("rajeev", ToLower(transcript), 'j');
  }

  /** The Shreya pattern stays silent on the same transcript: it has no `s`. */
  lemma AmanExampleShreyaSilent(transcript: string)
    requires transcript == "AMAN: Landing Page"
    ensures !Fires(ShreyaPattern, transcript)
  {
    LowerLacksLetter(transcript, 's');
    MissingCharBlocksMatch("shreya", ToLower(transcript), 's');
  }

  /** A transcript naming only Aman and the landing page, in any case, yields only the Aman task. */
  lemma AmanOnlyTranscript(transcript: string, today: int)
    requires transcript == "AMAN: Landing Page"
    ensures MockParseTranscript(transcript, today) == [Emit(AmanPattern, today)]
  {
    AmanExampleFires(transcript);
    AmanExampleRajeevSilent(transcript);
    AmanExampleShreyaSilent(transcript);
    OnlyOnePatternFires(transcript, today, 0);
  }
}

=== FILE: service.dfy ===
/**
 * The extraction service: the capability check that picks the language-model
 * backend or the fallback extractor, provenance stamping, and the glue around
 * building and updating tasks. The language-model backend and the task store
 * are parameters; what they return is not modelled.
 */
module TaskService {
  import opened Wrappers
  import opened Text
  import opened TaskSchema
  import Fallback

  /** The two placeholder keys that count as "no key configured". */
  const PlaceholderKey := "your_openai_api_key_here"
  const DemoKey := "sk-test-key-for-demo"

  /** `Ready`: a usable key is configured; `Degraded`: transcripts go to the fallback extractor. */
  datatype Mode = Ready | Degraded

  /**
   * The check on `OPENAI_API_KEY`: an unset variable, the empty string (both
   * falsy) or one of the placeholders selects the fallback extractor.
   */
  function Capability(apiKey: Option<string>): (m: Mode)
    ensures m == Degraded <==>
      apiKey in {None, Some(""), Some(PlaceholderKey), Some(DemoKey)}
  {
    match apiKey
    case None => Degraded
    case Some(key) =>
      if |key| == 0 || key == PlaceholderKey || key == DemoKey then Degraded else Ready
  }

  const TranscriptFailed := Error("Failed to parse tasks from transcript")
  const SingleParseFailed := Error("Failed to parse task from natural language")
  const NotFound := Error("Task not found")
  const ProvenancePrefix := "Extracted from transcript: "
  const ProvenanceJoin := " assigned to "

  /** A template-literal substitution: a missing value prints as `absent`. */
  function Render(value: Option<string>, absent: string): string {
    match value
    case None => absent
    case Some(v) => v
  }

  /**
   * The provenance of a transcript-derived task, built from the raw extracted
   * fields before the schema trims them. A missing task name prints as
   * "undefined"; a null assignee prints as "null".
   */
  function Provenance(f: TaskFields): (r: string)
    ensures |ProvenancePrefix| <= |r| && r[..|ProvenancePrefix|] == ProvenancePrefix
  {
    ProvenancePrefix + Render(f.taskName, "undefined") + ProvenanceJoin + Render(f.assignee, "null")
  }

  /**
   * The provenance text, spelled out: "Extracted from transcript: <name>
   * assigned to <assignee>", with "null" for a null assignee and "undefined"
   * for a missing name.
   */
  lemma ProvenanceText(name: string, assignee: string, f: TaskFields)
    ensures Provenance(f.(taskName := Some(name), assignee := Some(assignee)))
      == "Extracted from transcript: " + name + " assigned to " + assignee
    ensures Provenance(f.(taskName := Some(name), assignee := None))
      == "Extracted from transcript: " + name + " assigned to " + "null"
    ensures Provenance(f.(taskName := None, assignee := None))
      == "Extracted from transcript: " + "undefined" + " assigned to " + "null"
  {
  }

  /** `{...taskData, natural_text: provenance}`: the provenance replaces any natural text. */
  function Stamp(f: TaskFields): (r: TaskFields)
    ensures Present(r.naturalText)
    ensures r.(naturalText := f.naturalText) == f
  {
    f.(naturalText := Some(Provenance(f)))
  }

  /**
   * Builds the tasks one after another; the first that fails validation stops
   * the loop and its error propagates.
   */
  function SaveAll(drafts: seq<TaskFields>): (r: Result<seq<Task>, Error>)
    ensures r.Success? <==> forall i :: 0 <= i < |drafts| ==> MakeTask(drafts[i]).Success?
    ensures r.Success? ==> |r.value| == |drafts|
    ensures r.Success? ==> forall i :: 0 <= i < |drafts| ==> MakeTask(drafts[i]) == Success(r.value[i])
    ensures r.Failure? ==> exists i :: 0 <= i < |drafts| && MakeTask(drafts[i]) == Failure(r.error)
  {
    if |drafts| == 0 then Success([])
    else
      match MakeTask(drafts[0])
      case Failure(e) => Failure(e)
      case Success(t) =>
        match SaveAll(drafts[1..])
        case Failure(e) => Failure(e)
        case Success(ts) => Success([t] + ts)
  }

  function StampAll(drafts: seq<TaskFields>): (r: seq<TaskFields>)
    ensures |r| == |drafts|
    ensures forall i :: 0 <= i < |drafts| ==> r[i] == Stamp(drafts[i])
  {
    seq(|drafts|, i requires 0 <= i < |drafts| => Stamp(drafts[i]))
  }

  /**
   * Stamps and builds every extracted draft, in order; any failure surfaces as
   * the transcript error.
   */
  function SaveStamped(drafts: seq<TaskFields>): (r: Result<seq<Task>, Error>)
    ensures r.Success? <==> forall i :: 0 <= i < |drafts| ==> MakeTask(Stamp(drafts[i])).Success?
    ensures r.Failure? ==> r.error == TranscriptFailed
    ensures r.Success? ==> |r.value| == |drafts|
    ensures r.Success? ==> forall i :: 0 <= i < |drafts| ==> MakeTask(Stamp(drafts[i])) == Success(r.value[i])
  {
    match SaveAll(StampAll(drafts))
    case Failure(_) => Failure(TranscriptFailed)
    case Success(ts) => Success(ts)
  }

  /**
   * `parseTranscript(transcript)`: in `Degraded` mode the fallback extractor's
   * tasks, otherwise the backend's; every task is stamped with its provenance
   * and validated, and any failure surfaces as one fixed error.
   */
  function ParseTranscript(
    apiKey: Option<string>,
    transcript: string,
    today: int,
    backend: string -> Result<seq<TaskFields>, Error>)
    : (r: Result<seq<Task>, Error>)
    ensures Capability(apiKey) == Degraded ==> r.Success? && 1 <= |r.value| <= |Fallback.Patterns|
    ensures Capability(apiKey) == Degraded ==>
      var ds := Fallback.MockParseTranscript(transcript, today);
      && (forall i :: 0 <= i < |ds| ==> ds[i].taskName.Some?)
      && r == Success(seq(|ds|, i requires 0 <= i < |ds| => SavedAs(ds[i])))
    ensures r.Failure? ==> r.error == TranscriptFailed
    ensures Capability(apiKey) == Ready && r.Success? ==>
      && backend(transcript).Success?
      && |r.value| == |backend(transcript).value|
      && forall i :: 0 <= i < |r.value| ==>
           r.value[i].naturalText == Provenance(backend(transcript).value[i])
    ensures Capability(apiKey) == Ready && backend(transcript).Failure? ==> r == Failure(TranscriptFailed)
    ensures Capability(apiKey) == Ready && backend(transcript).Success? ==> r == SaveStamped(backend(transcript).value)
  {
    if Capability(apiKey) == Degraded then
      var ds := Fallback.MockParseTranscript(transcript, today);
      SavedCandidates(ds, today);
      SaveStamped(ds)
    else
      match backend(transcript)
      case Failure(_) => Failure(TranscriptFailed)
      case Success(ds) => SaveStamped(ds)
  }

  /** A draft with a clean, present name and a valid priority passes validation once stamped. */
  lemma StampedDraftIsValid(d: TaskFields)
    requires d.taskName.Some? && |d.taskName.value| > 0 && NoEdgeSpace(d.taskName.value)
    requires d.priority == Some(Fallback.FallbackPriority)
    ensures MakeTask(Stamp(d)).Success?
    ensures MakeTask(Stamp(d)).value.priority == P3
    ensures MakeTask(Stamp(d)).value.taskName == d.taskName.value
  {
    TrimKeepsClean(d.taskName.value);
  }

  /** The task a stamped fallback candidate is saved as. */
  function SavedAs(d: TaskFields): Task
    requires d.taskName.Some?
  {
    Task(d.taskName.value, d.assignee, d.dueDatetime, P3, Provenance(d))
  }

  /** A draft with a clean name and assignee and priority P3 is saved unchanged, with its provenance. */
  lemma CleanDraftSaves(d: TaskFields)
    requires d.taskName.Some? && |d.taskName.value| > 0 && NoEdgeSpace(d.taskName.value)
    requires d.assignee.Some? ==> NoEdgeSpace(d.assignee.value)
    requires d.priority == Some(Fallback.FallbackPriority)
    ensures MakeTask(Stamp(d)) == Success(SavedAs(d))
  {
    StampedDraftIsValid(d);
    if d.assignee.Some? {
      TrimKeepsClean(d.assignee.value);
    }
  }

  /** A stamped fallback candidate is saved unchanged, with priority P3 and its provenance. */
  lemma CandidateSaves(d: TaskFields, today: int)
    requires d in Fallback.Candidates(today)
    ensures d.taskName.Some?
    ensures MakeTask(Stamp(d)) == Success(SavedAs(d))
  {
    Fallback.CandidatesClean(today);
    CleanDraftSaves(d);
  }

  /**
   * Fallback candidates are saved with priority P3, their own name, assignee
   * and due time, and their provenance as natural text.
   */
  lemma SavedCandidates(drafts: seq<TaskFields>, today: int)
    requires forall i :: 0 <= i < |drafts| ==> drafts[i] in Fallback.Candidates(today)
    ensures forall i :: 0 <= i < |drafts| ==> drafts[i].taskName.Some?
    ensures SaveStamped(drafts) == Success(seq(|drafts|, i requires 0 <= i < |drafts| => SavedAs(drafts[i])))
  {
    forall i | 0 <= i < |drafts|
      ensures drafts[i].taskName.Some?
      ensures MakeTask(Stamp(drafts[i])) == Success(SavedAs(drafts[i]))
    {
      CandidateSaves(drafts[i], today);
    }
    var r := SaveStamped(drafts);
    assert r.Success?;
    assert r.value == seq(|drafts|, i requires 0 <= i < |drafts| => SavedAs(drafts[i]));
  }

  /** The task saved when no pattern fires, with its provenance spelled out. */
  const GenericSaved := Task(
    "Process meeting transcript", None, None, P3,
    ProvenancePrefix + "Process meeting transcript" + ProvenanceJoin + "null")

  /** In `Degraded` mode a transcript that fires no pattern yields exactly the generic task. */
  lemma DegradedGenericTask(
    apiKey: Option<string>,
    transcript: string,
    today: int,
    backend: string -> Result<seq<TaskFields>, Error>)
    requires Capability(apiKey) == Degraded
    requires forall k :: 0 <= k < |Fallback.Patterns| ==> !Fallback.Fires(Fallback.Patterns[k], transcript)
    ensures ParseTranscript(apiKey, transcript, today, backend) == Success([GenericSaved])
  {
    var ds := Fallback.MockParseTranscript(transcript, today);
    assert ds == [Fallback.GenericTask];
    assert SavedAs(Fallback.GenericTask) == GenericSaved;
    assert seq(|ds|, i requires 0 <= i < |ds| => SavedAs(ds[i])) == [GenericSaved];
  }

  /** The capability check is static: in `Degraded` mode the backend is never consulted. */
  lemma DegradedIgnoresBackend(
    apiKey: Option<string>,
    transcript: string,
    today: int,
    backend: string -> Result<seq<TaskFields>, Error>,
    other: string -> Result<seq<TaskFields>, Error>)
    requires Capability(apiKey) == Degraded
    ensures ParseTranscript(apiKey, transcript, today, backend) == ParseTranscript(apiKey, transcript, today, other)
  {
  }

  /**
   * `createTask(naturalText)`: the backend's fields with the caller's text as
   * natural text, built and validated; a backend failure surfaces as one
   * fixed error.
   */
  function CreateTask(naturalText: string, backend: string -> Result<TaskFields, Error>): (r: Result<Task, Error>)
    ensures backend(naturalText).Failure? ==> r == Failure(SingleParseFailed)
    ensures backend(naturalText).Success? && r.Failure? ==> r.error == ValidationFailed
    ensures r.Success? ==>
      && backend(naturalText).Success?
      && r.value.naturalText == naturalText
      && Some(r.value.taskName) == TrimOption(backend(naturalText).value.taskName)
      && r.value.assignee == TrimOption(backend(naturalText).value.assignee)
      && r.value.dueDatetime == backend(naturalText).value.dueDatetime
      && (backend(naturalText).value.priority.None? ==> r.value.priority == DefaultPriority)
      && (backend(naturalText).value.priority.Some? ==>
            PriorityName(r.value.priority) == backend(naturalText).value.priority.value)
    ensures backend(naturalText).Success? ==>
      var f := backend(naturalText).value;
      (r.Success? <==> |naturalText| > 0 && Present(TrimOption(f.taskName))
                       && (f.priority.None? || ParsePriority(f.priority.value).Some?))
  {
    match backend(naturalText)
    case Failure(_) => Failure(SingleParseFailed)
    case Success(parsed) => MakeTask(parsed.(naturalText := Some(naturalText)))
  }

  /**
   * `updateTask(id, updates)`: the store's updated task; a missing task is the
   * "Task not found" error and a store error propagates unchanged.
   */
  function UpdateTask<V>(
    id: string,
    updates: map<string, V>,
    store: (string, map<string, V>) -> Result<Option<Task>, Error>)
    : (r: Result<Task, Error>)
    ensures r.Success? <==> store(id, updates).Success? && store(id, updates).value.Some?
    ensures r.Success? ==> r.value == store(id, updates).value.value
    ensures store(id, updates) == Success(None) ==> r == Failure(NotFound)
    ensures store(id, updates).Failure? ==> r == Failure(store(id, updates).error)
  {
    match store(id, updates)
    case Failure(e) => Failure(e)
    case Success(None) => Failure(NotFound)
    case Success(Some(t)) => Success(t)
  }
}

=== FILE: task.dfy ===
/**
 * The Task schema: the shape, defaults and validation every stored task passes
 * through. Building a `Task` from a plain object applies the schema's setters
 * (trim) and defaults, then its validators (required, enum), as saving a
 * document does.
 */
module TaskSchema {
  import opened Wrappers
  import opened Text
  import Clock

  /** P1 urgent, P2 high, P3 normal, P4 low. */
  datatype Priority = P1 | P2 | P3 | P4

  const DefaultPriority := P3

  function PriorityName(p: Priority): string {
    match p
    case P1 => "P1"
    case P2 => "P2"
    case P3 => "P3"
    case P4 => "P4"
  }

  /** The `enum` validator: only the four names are accepted, exactly as spelled. */
  function ParsePriority(s: string): (r: Option<Priority>)
    ensures r.Some? <==> s in {"P1", "P2", "P3", "P4"}
    ensures r.Some? ==> PriorityName(r.value) == s
  {
    if s == "P1" then Some(P1)
    else if s == "P2" then Some(P2)
    else if s == "P3" then Some(P3)
    else if s == "P4" then Some(P4)
    else None
  }

  /** Every priority survives a trip through its stored name. */
  lemma PriorityNameRoundTrip(p: Priority)
    ensures ParsePriority(PriorityName(p)) == Some(p)
  {
  }

  /** A stored task. */
  datatype Task = Task(
    taskName: string,
    assignee: Option<string>,
    dueDatetime: Option<Clock.Instant>,
    priority: Priority,
    naturalText: string)

  /** What the schema guarantees of every task it accepts. */
  predicate WellFormed(t: Task) {
    && |t.taskName| > 0 && NoEdgeSpace(t.taskName)
    && (t.assignee.Some? ==> NoEdgeSpace(t.assignee.value))
    && |t.naturalText| > 0
  }

  /**
   * The plain object a task is built from: each property may be absent
   * (`None`); a `null` assignee is also `None`. The priority is still the raw
   * string the enum validator checks.
   */
  datatype TaskFields = TaskFields(
    taskName: Option<string>,
    assignee: Option<string>,
    dueDatetime: Option<Clock.Instant>,
    priority: Option<string>,
    naturalText: Option<string>)

  /** A thrown error; only its message is observable to callers. */
  datatype Error = Error(message: string)

  const ValidationFailed := Error("Task validation failed")

  /** A `required` string path accepts only a non-empty string. */
  predicate Present(s: Option<string>) {
    s.Some? && |s.value| > 0
  }

  function TrimOption(s: Option<string>): (r: Option<string>)
    ensures r.Some? <==> s.Some?
    ensures r.Some? ==> NoEdgeSpace(r.value)
    ensures s.Some? && NoEdgeSpace(s.value) ==> r == s
  {
    match s
    case None => None
    case Some(v) =>
      if NoEdgeSpace(v) then TrimKeepsClean(v); Some(Trim(v)) else Some(Trim(v))
  }

  /**
   * Builds and validates a task: `task_name` and `assignee` are trimmed,
   * `task_name` and `natural_text` are required, `priority` defaults to P3 and
   * must name one of the four priorities.
   */
  function MakeTask(f: TaskFields): (r: Result<Task, Error>)
    ensures r.Success? <==>
      && Present(TrimOption(f.taskName))
      && Present(f.naturalText)
      && (f.priority.None? || ParsePriority(f.priority.value).Some?)
    ensures r.Failure? ==> r.error == ValidationFailed
    ensures r.Success? ==> WellFormed(r.value)
    ensures r.Success? ==>
      && r.value.taskName == Trim(f.taskName.value)
      && r.value.assignee == TrimOption(f.assignee)
      && r.value.dueDatetime == f.dueDatetime
      && Some(r.value.naturalText) == f.naturalText
    ensures r.Success? && f.priority.None? ==> r.value.priority == DefaultPriority
    ensures r.Success? && f.priority.Some? ==> PriorityName(r.value.priority) == f.priority.value
  {
    var name := TrimOption(f.taskName);
    var priority := if f.priority.None? then Some(DefaultPriority) else ParsePriority(f.priority.value);
    if Present(name) && Present(f.naturalText) && priority.Some? then
      Success(Task(name.value, TrimOption(f.assignee), f.dueDatetime, priority.value, f.naturalText.value))
    else
      Failure(ValidationFailed)
  }

  /** The plain object a stored task serialises to. */
  function FieldsOf(t: Task): TaskFields {
    TaskFields(Some(t.taskName), t.assignee, t.dueDatetime, Some(PriorityName(t.priority)), Some(t.naturalText))
  }

  /** Rebuilding a well-formed task from its own fields gives back the same task. */
  lemma MakeTaskRoundTrip(t: Task)
    requires WellFormed(t)
    ensures MakeTask(FieldsOf(t)) == Success(t)
  {
    TrimKeepsClean(t.taskName);
    assert TrimOption(Some(t.taskName)) == Some(t.taskName);
    if t.assignee.Some? {
      TrimKeepsClean(t.assignee.value);
    }
    assert TrimOption(t.assignee) == t.assignee;
    PriorityNameRoundTrip(t.priority);
  }

  /** Normalising is idempotent: a task built from the fields of a built task is unchanged. */
  lemma MakeTaskIdempotent(f: TaskFields)
    requires MakeTask(f).Success?
    ensures MakeTask(FieldsOf(MakeTask(f).value)) == MakeTask(f)
  {
    MakeTaskRoundTrip(MakeTask(f).value);
  }
}

=== FILE: text.dfy ===
/**
 * The JavaScript string built-ins the task code relies on: `trim`, `toLowerCase`
 * and `includes`, over strings of Unicode scalar values.
 */
module Text {

  /** A code point that `String.prototype.trim` strips: ECMAScript WhiteSpace or LineTerminator. */
  predicate IsSpace(c: char) {
    || c == '\t' || c == '\n' || c == '\U{B}' || c == '\U{C}' || c == '\r' || c == ' '
    || c == '\U{A0}' || c == '\U{1680}' || ('\U{2000}' <= c <= '\U{200A}')
    || c == '\U{2028}' || c == '\U{2029}' || c == '\U{202F}' || c == '\U{205F}'
    || c == '\U{3000}' || c == '\U{FEFF}'
  }

  ghost predicate AllSpace(s: string) {
    forall k :: 0 <= k < |s| ==> IsSpace(s[k])
  }

  /** Neither the first nor the last character is white space. */
  predicate NoEdgeSpace(s: string) {
    |s| == 0 || (!IsSpace(s[0]) && !IsSpace(s[|s| - 1]))
  }

  /** The length of the longest all-space prefix. */
  function LeadingSpaceCount(s: string): (n: nat)
    ensures n <= |s|
    ensures AllSpace(s[..n])
    ensures n < |s| ==> !IsSpace(s[n])
  {
    if |s| > 0 && IsSpace(s[0]) then 1 + LeadingSpaceCount(s[1..]) else 0
  }

  /** The length of the longest all-space suffix. */
  function TrailingSpaceCount(s: string): (n: nat)
    ensures n <= |s|
    ensures AllSpace(s[|s| - n..])
    ensures n < |s| ==> !IsSpace(s[|s| - n - 1])
  {
    if |s| > 0 && IsSpace(s[|s| - 1]) then 1 + TrailingSpaceCount(s[..|s| - 1]) else 0
  }

  /**
   * `s.trim()`: the middle of `s` once every leading and trailing white space
   * character is removed.
   */
  function Trim(s: string): (r: string)
    ensures NoEdgeSpace(r)
    ensures exists i, j :: 0 <= i <= j <= |s| && r == s[i..j] && AllSpace(s[..i]) && AllSpace(s[j..])
    ensures |r| == 0 <==> AllSpace(s)
  {
    var i := LeadingSpaceCount(s);
    var rest := s[i..];
    var n := TrailingSpaceCount(rest);
    var j := i + |rest| - n;
    assert rest[..j - i] == s[i..j];
    assert rest[|rest| - n..] == s[j..];
    assert i == j ==> AllSpace(s) by {
      if i == j {
        AllSpaceJoin(s, i);
      }
    }
    assert i < j ==> !IsSpace(s[i]);
    s[i..j]
  }

  /** Leading white space followed by a non-space character is counted exactly. */
  lemma {:induction false} LeadingSpaceCountExact(a: string, rest: string)
    requires AllSpace(a) && |rest| > 0 && !IsSpace(rest[0])
    ensures LeadingSpaceCount(a + rest) == |a|
  {
    if |a| == 0 {
      assert a + rest == rest;
    } else {
      assert (a + rest)[0] == a[0];
      assert (a + rest)[1..] == a[1..] + rest;
      LeadingSpaceCountExact(a[1..], rest);
    }
  }

  /** Trailing white space preceded by a non-space character is counted exactly. */
  lemma {:induction false} TrailingSpaceCountExact(rest: string, b: string)
    requires AllSpace(b) && |rest| > 0 && !IsSpace(rest[|rest| - 1])
    ensures TrailingSpaceCount(rest + b) == |b|
  {
    if |b| == 0 {
      assert rest + b == rest;
    } else {
      var s := rest + b;
      assert s[|s| - 1] == b[|b| - 1];
      assert s[..|s| - 1] == rest + b[..|b| - 1];
      TrailingSpaceCountExact(rest, b[..|b| - 1]);
    }
  }

  /** A string that is white space on both sides of a cut is white space throughout. */
  lemma AllSpaceJoin(s: string, i: nat)
    requires i <= |s| && AllSpace(s[..i]) && AllSpace(s[i..])
    ensures AllSpace(s)
  {
    forall k | 0 <= k < |s| ensures IsSpace(s[k]) {
      if k < i { assert s[k] == s[..i][k]; } else { assert s[k] == s[i..][k - i]; }
    }
  }

  /** Trimming is determined by the shape of its input: space, a core without edge space, space. */
  lemma TrimUnique(a: string, m: string, b: string)
    requires AllSpace(a) && AllSpace(b) && NoEdgeSpace(m)
    ensures Trim(a + m + b) == m
  {
    var s := a + m + b;
    if |m| == 0 {
      assert s == a + b;
      assert AllSpace(s) by {
        forall k | 0 <= k < |s| ensures IsSpace(s[k]) {
          if k < |a| { assert s[k] == a[k]; } else { assert s[k] == b[k - |a|]; }
        }
      }
    } else {
      assert s == a + (m + b);
      LeadingSpaceCountExact(a, m + b);
      assert s[|a|..] == m + b;
      TrailingSpaceCountExact(m, b);
      assert s[|a|..|a| + |m|] == m;
    }
  }

  /** Trimming a trimmed string changes nothing. */
  lemma TrimIdempotent(s: string)
    ensures Trim(Trim(s)) == Trim(s)
  {
    TrimUnique([], Trim(s), []);
    assert [] + Trim(s) + [] == Trim(s);
  }

  /** A string without edge white space is its own trim. */
  lemma TrimKeepsClean(s: string)
    requires NoEdgeSpace(s)
    ensures Trim(s) == s
  {
    TrimUnique([], s, []);
    assert [] + s + [] == s;
  }

  /** The Kelvin sign, whose lower case is the ASCII letter `k`. */
  const KelvinSign: char := '\U{212A}'

  /**
   * `toLowerCase` on one code point, exact wherever the result is an ASCII
   * character: ASCII capitals and the Kelvin sign map to ASCII lower case, and
   * every other code point stands for its own (non-ASCII) lower case.
   */
  function LowerChar(c: char): char {
    if 'A' <= c <= 'Z' then (c as int + 32) as char
    else if c == KelvinSign then 'k'
    else c
  }

  /** `s.toLowerCase()`, under the per-code-point reading of `LowerChar`. */
  function ToLower(s: string): (r: string)
    ensures |r| == |s|
    ensures forall k :: 0 <= k < |r| ==> !('A' <= r[k] <= 'Z') && r[k] != KelvinSign
    ensures forall k :: 0 <= k < |s| && 'A' <= s[k] <= 'Z' ==> r[k] as int == s[k] as int + 32
    ensures forall k :: 0 <= k < |s| && s[k] == KelvinSign ==> r[k] == 'k'
    ensures forall k :: 0 <= k < |s| && !('A' <= s[k] <= 'Z') && s[k] != KelvinSign ==> r[k] == s[k]
  {
    seq(|s|, k requires 0 <= k < |s| => LowerChar(s[k]))
  }

  /** Lower-casing twice is lower-casing once. */
  lemma ToLowerIdempotent(s: string)
    ensures ToLower(ToLower(s)) == ToLower(s)
  {
  }

  /**
   * Lower-casing cannot produce a letter absent in both cases, other than `k`
   * (from the Kelvin sign) and `i` (which `toLowerCase` produces from U+0130).
   */
  lemma LowerLacksLetter(s: string, c: char)
    requires 'a' <= c <= 'z' && c != 'k' && c != 'i'
    requires c !in s && (c as int - 32) as char !in s
    ensures c !in ToLower(s)
  {
  }

  /** `p` occurs in `s` as a contiguous block. */
  ghost predicate IsInfix(p: string, s: string) {
    exists i :: OccursAt(p, s, i)
  }

  /** `p` occurs in `s` starting at index `i`. */
  predicate OccursAt(p: string, s: string, i: int) {
    0 <= i <= |s| - |p| && s[i..i + |p|] == p
  }

  /** `s.includes(p)`. */
  function Contains(s: string, p: string): (r: bool)
    ensures r <==> IsInfix(p, s)
    decreases |s|
  {
    if |p| > |s| then false
    else if s[..|p|] == p then
      assert OccursAt(p, s, 0);
      true
    else
      var t := s[1..];
      assert IsInfix(p, t) ==> IsInfix(p, s) by {
        if IsInfix(p, t) {
          var i :| OccursAt(p, t, i);
          assert s[i + 1..i + 1 + |p|] == t[i..i + |p|];
          assert OccursAt(p, s, i + 1);
        }
      }
      assert IsInfix(p, s) ==> IsInfix(p, t) by {
        if IsInfix(p, s) {
          var i :| OccursAt(p, s, i);
          assert i != 0;
          assert t[i - 1..i - 1 + |p|] == s[i..i + |p|];
          assert OccursAt(p, t, i - 1);
        }
      }
      Contains(t, p)
  }
}

=== FILE: wrappers.dfy ===
/** Failure-carrying values shared by every module of the model. */
module Wrappers {

  /** An optional value; `None` stands for JavaScript's `null` or an absent property. */
  datatype Option<+T> = None | Some(value: T)

  /** The outcome of an operation that may throw: `Failure` carries the thrown error. */
  datatype Result<+R, +E> = Success(value: R) | Failure(error: E)
}
